=== FILE: README.md ===
# Point-of-sale cashier and checkout, modelled in Dafny

This project models the logic of a terminal point-of-sale program, `pos2.py`.
An operator logs in as `admin` or `cashier`. The cashier builds a cart from a
fixed four-product catalog and checks out by cash or card. Every completed
sale is appended to a transaction log. The admin browses that log read-only.

The model is purely functional:

- `text.dfy` (`Text`): Python's `isdigit`/`int` pair and `lower`. `Show` is the
  decimal rendering the menus print; `Value` reads back what `Show` prints.
- `catalog.dfy` (`Catalog`): products, the seed catalog and numbered selection
  from a listed menu.
- `cart.dfy` (`Cart`): line items, the cart with its running total, the
  quantity prompt (`AddProduct`), the add-item sub-loop (`AddItem`) and the
  cart invariant `Consistent`.
- `store.dfy` (`Store`): the transaction record, the append-only log
  (`SaveTransaction`) and the well-formedness of records.
- `checkout.dfy` (`Sale`): payment validation (`Settle`) and checkout
  (`Checkout`).
- `cashier.dfy` (`Cashier`): the cashier dashboard as a state machine. `Dispatch`
  handles the main menu, `Step` runs one loop iteration and `Run` runs a bounded
  sequence of iterations.
- `admin.dfy` (`Admin`): the admin dashboard and transaction selection.
- `login.dfy` (`Gate`): credential check and routing to a dashboard.
- `scenarios.dfy` (`Scenarios`): concrete walks with the real catalog and
  credential table.

Modelling decisions:

- A rejected input returns `Err(fault)` or `Rejected(fault)`. The session is
  then returned unchanged.
- `isdigit` means non-empty and all ASCII `0`-`9`. `int` is the base-ten value
  of such a string.
- `lower` maps ASCII `A`-`Z` to `a`-`z`.
- The program creates the receipt id and the timestamp through library calls
  (`uuid.uuid4()`, `datetime.now()`) that the model does not run. They are a
  `Stamp` parameter of checkout.
- The log file is a `seq<Transaction>`, oldest record first.

`pos2.py` has no code to delete transactions, rewrite the log or edit
products; its catalog is the constant list at `pos2.py:46-51`. Products and
transactions are selected by their 1-based menu number.

## Model

| member | source | states |
|---|---|---|
| Text.ParseNat | pos2.py:212-213 | a numeric answer is accepted iff it passes `isdigit` |
| Text.ParseNatCanonical | pos2.py:212-213 | an accepted answer without a leading zero is exactly how its parsed value prints |
| Text.ToLower | pos2.py:86 | lower-casing keeps the length, turns every upper-case ASCII letter into the lower-case letter at the same place in the alphabet, and keeps every other character in place |
| Text.ShowValue | pos2.py:212-213 | printing the value of a digit string without a leading zero gives the string back |
| Text.ValueShow | pos2.py:170-171 | reading back a printed menu number with `int` gives that number |
| Text.ParseShow | pos2.py:209 | a printed menu number passes `isdigit` and parses to itself |
| Text.ValueLeadingZero | pos2.py:251-253 | a leading zero does not change `int`'s value, so `01` means 1 |
| Text.LowerDigits | pos2.py:182 | lower-casing neither creates nor destroys a digit string and leaves digit strings unchanged |
| Text.LowerToDigits | pos2.py:184 | only the answer `1` itself lower-cases to `1` (likewise `2`, `3`) |
| Text.ToLowerIdempotent | pos2.py:86 | lower-casing an already lower-cased name changes nothing |
| Catalog.SelectNumber | pos2.py:209-210 | a product number is accepted iff it is all digits with value in `1..len(products)`, and selects position value-1 |
| Catalog.SelectShown | pos2.py:195-196 | the number printed beside each listed product selects exactly that product |
| Catalog.SelectLeadingZero | pos2.py:253-255 | a number with a leading zero selects the same product as without it |
| Cart.SumTotalsAppend | pos2.py:215-216 | appending a line increases the sum of line totals by that line's total |
| Cart.EmptyCartConsistent | pos2.py:157-158 | the empty cart with total 0 satisfies the cart invariant |
| Cart.AddProduct | pos2.py:211-220 | a quantity is accepted iff all digits and above 0; then one line with that product's name, price, the quantity and cost `qty * price` is appended, earlier lines kept, and the total grows by that cost; else `InvalidQuantity` |
| Cart.AddItem | pos2.py:209-222 | an invalid product number gives `InvalidProductNumber` before any quantity check; success iff product and quantity are both valid; a valid number `n` behaves exactly as the quantity prompt for product `n` |
| Cart.AddProductConsistent | pos2.py:212-216 | an accepted add keeps the invariant: total equals the sum of line totals, each line has `qty > 0` and `total == qty * price` |
| Cart.AddItemConsistent | pos2.py:209-216 | the same invariant is kept through the add-item sub-loop |
| Store.SaveTransaction | pos2.py:64-76 | the log grows by exactly one record at its end, carrying the given id, time, items, total, method, cash and change; earlier records are untouched |
| Store.SaveKeepsLogWellFormed | pos2.py:64-76 | appending a well-formed record keeps every record well formed and extends the old log |
| Sale.ParseMethod | pos2.py:229-233 | the method is accepted iff its lower-cased form is `cash` or `card`, and the stored name is that lower-cased form |
| Sale.Settle | pos2.py:229-244 | invalid method gives `InvalidMethod`; cash succeeds iff the tendered string is digits with value at least the total, recording that value; card records cash = total and change 0; change is never negative and cash = total + change |
| Sale.Checkout | pos2.py:223-247 | an empty cart gives `CartEmpty`; on a non-empty cart a refused payment reports the payment's own fault (`InvalidMethod` or `InsufficientCash`); success iff the cart is non-empty and the payment settles; then exactly one record with the cart's items and total is appended, the log is otherwise unchanged and the cart is emptied with total 0 |
| Sale.CashCheckout | pos2.py:234-241 | cash checkout of a non-empty cart succeeds iff cash is digits and at least the total; the record has `change == cash - total >= 0`; failure is `InsufficientCash` |
| Sale.CardCheckout | pos2.py:242-245 | card checkout of a non-empty cart always succeeds with `cash == total` and `change == 0` |
| Sale.CheckoutKeepsLogWellFormed | pos2.py:240-247 | checking out a consistent cart appends a well-formed record (non-empty lines summing to the total, payment covering it), whatever the log held; a well-formed log stays well formed |
| Cashier.Start | pos2.py:156-158 | a cashier session opens at the menu with an empty, consistent cart over the current log |
| Cashier.Dispatch | pos2.py:182-269 | `1`, `2`, `3` are the menu commands and never quick-add; every other digit string quick-adds with its value; any non-digit answer is invalid input |
| Cashier.Step | pos2.py:182-269 | one iteration changes nothing when it rejects, changes the till only by nothing, one appended cart line or one checkout, and logs out exactly on menu answer `3`; the add-item loop is entered only by menu answer `1` and left only by `b`; a non-digit menu answer is refused with `InvalidInput` |
| Cashier.StepFacts | pos2.py:182-269 | from a consistent cart, one iteration keeps the cart consistent and appends only well-formed records, whatever the log held; a well-formed log stays well formed |
| Cashier.PaySelects | pos2.py:223-247 | menu answer `2` installs the checked-out till when checkout succeeds, and otherwise reports checkout's own fault and changes nothing |
| Cashier.QuickAddSelects | pos2.py:251-267 | a quick-add number other than 1-3 is an invalid product iff out of range; it is accepted iff in range with a valid quantity; then exactly that product's line is appended and the log is untouched |
| Cashier.AddingSelects | pos2.py:206-222 | in the add-item sub-loop, any answer but `b` is an invalid product iff it selects nothing; it is accepted iff the product and quantity are valid; then exactly that product's line is appended, the sub-loop continues and the log is untouched |
| Cashier.Run | pos2.py:160-269 | a bounded run only ever appends to the log, and a logged-out session reads no further turns |
| Cashier.RunKeepsInvariants | pos2.py:160-269 | over any bounded run from a consistent cart the cart stays consistent, the log only grows at its end, every appended record is well formed whatever the log held, and a well-formed log stays well formed |
| Admin.Start | pos2.py:100-102 | the admin dashboard opens at its menu over a snapshot of the log |
| Admin.SelectTransaction | pos2.py:120-125 | a selection is accepted iff it is digits with `1 <= n <= len(transactions)`, and yields record n; otherwise `InvalidSelection` |
| Admin.SelectListed | pos2.py:118-122 | the number printed beside each listed record selects that record |
| Admin.Step | pos2.py:104-151 | an admin iteration never changes the loaded transactions, changes nothing when it rejects, only ever shows a loaded record, logs out exactly on `2` at the dashboard, and leaves the detail view exactly on `1` (any other answer keeps it); at the dashboard `1` with no records gives the no-transactions notice and any answer but `1` or `2` is refused with `InvalidInput` |
| Admin.ViewListed | pos2.py:113-125 | choosing `1` with records present opens the detail view iff the selection is valid, showing record n; otherwise it reports an invalid selection and changes nothing |
| Gate.Login | pos2.py:86-95 | login succeeds iff the lower-cased name is a key of the table and the password equals its value exactly; the user is the lower-cased name; otherwise `InvalidCredentials` |
| Gate.LoginIgnoresCase | pos2.py:86-88 | logging in with the lower-cased name gives the same result as with the name as typed |
| Gate.Route | pos2.py:274-279 | `admin` opens the admin dashboard over the log, `cashier` a fresh cashier session; anything else returns to login |
| Gate.FixedUsers | pos2.py:41-44 | with the program's table, login succeeds iff the name is `admin` or `cashier` in any case and the password is `1234`, and success always reaches a dashboard |
| Scenarios.LogoCashSale | pos2.py:184-247 | two Logos via the add-item loop cost 100; paying 150 in cash records total 100, cash 150, change 50 and empties the cart |
| Scenarios.EmptyCartCheckout | pos2.py:223-228 | checkout on a fresh session is refused with `CartEmpty` and nothing changes |
| Scenarios.NegativeQuantity | pos2.py:256-265 | quantity `-1` is refused with `InvalidQuantity` and nothing changes |
| Scenarios.OneVersusZeroOne | pos2.py:184-186 | `1` opens the add-item loop while `01` quick-adds ID Lace |
| Scenarios.AdminInCapitals | pos2.py:86-91 | `ADMIN` / `1234` reaches the admin dashboard |

## Left out

- Terminal rendering is not modelled: colours, screen clearing, headers, the
  product, cart and transaction listings, and the detail display. None of it
  affects state.
- Pauses (`time.sleep`) and "Press Enter" prompts are not modelled. They have no
  effect on state.
- The receipt id (`uuid.uuid4()`) and the timestamp (`datetime.now()`) are not
  generated. They are an opaque `Stamp` parameter, so receipt-id uniqueness is
  not modelled.
- Reading and writing `transactions.json` and the JSON encoding are not
  modelled. The log is the sequence of records the file holds, and an
  unparseable line in the file is not modelled.
- The outer login loop never terminates and is not modelled as a loop.
  `Gate.Route` models one pass of it.
- `Cashier.Run` models a bounded run of the cashier loop. Turns after a logout
  are not read. The admin loop is modelled one `Admin.Step` at a time.
- Transaction deletion, rewriting the log and product editing are not part of
  this model. They exist only in a variant of the program, not in `pos2.py`.
- Recent Python versions refuse to convert a decimal string of more than 4300
  digits with `int()` and raise an error the program does not catch, so it
  stops. The model accepts such an answer at every numeric prompt with its
  full value.
- Python's `isdigit` also accepts non-ASCII digits, on which `int` can fail,
  and `lower` also folds non-ASCII letters. The model covers ASCII only.
- Admin "No transactions found." is a notice, not an error, in the program. It
  is modelled as `Rejected(NoTransactions)` because the state stays unchanged
  either way.

=== FILE: admin.dfy ===
/** The admin dashboard: a read-only browser over the transactions loaded
    when the dashboard opens. */
module Admin {
  import opened Results
  import opened Text
  import opened Catalog
  import opened Store

  /** The dashboard menu, the detail view of one record, or logged out. */
  datatype View = Dashboard | Detail(shown: Transaction) | LoggedOut

  /** `transactions` is the snapshot loaded once on entry. */
  datatype Session = Session(transactions: seq<Transaction>, view: View)

  /** The detail view only ever shows one of the loaded records. */
  predicate ShowsLoaded(s: Session) {
    s.view.Detail? ==> s.view.shown in s.transactions
  }

  function Start(log: seq<Transaction>): (s: Session)
    ensures s.transactions == log && s.view == Dashboard && ShowsLoaded(s)
  {
    Session(log, Dashboard)
  }

  /** The transaction-number prompt: accepted only for a number `n` with
      `1 <= n <= |transactions|`, selecting the `n`-th record listed. */
  function SelectTransaction(transactions: seq<Transaction>, input: string): (r: Result<Transaction>)
    ensures r.Ok? <==> IsDigits(input) && 1 <= Value(input) <= |transactions|
    ensures r.Ok? ==> r.value == transactions[Value(input) - 1]
    ensures r.Err? ==> r.error == InvalidSelection
  {
    match SelectNumber(input, |transactions|)
    case Some(i) => Ok(transactions[i])
    case None => Err(InvalidSelection)
  }

  /** The number the list prints beside a record selects that record. */
  lemma SelectListed(transactions: seq<Transaction>, i: nat)
    requires i < |transactions|
    ensures SelectTransaction(transactions, Show(i + 1)) == Ok(transactions[i])
  {
    SelectShown(i, |transactions|);
  }

  datatype Reply = Reply(next: Session, status: Status)

  /** One iteration of the admin loop. `choice` answers the menu (or the
      prompt of the detail view) and `selection` the transaction-number
      prompt, which is only shown when there are transactions. */
  function Step(s: Session, choice: string, selection: string): (r: Reply)
    requires !s.view.LoggedOut?
    ensures r.next.transactions == s.transactions
    ensures r.status.Rejected? ==> r.next == s
    ensures ShowsLoaded(s) ==> ShowsLoaded(r.next)
    ensures r.next.view.LoggedOut? <==> s.view == Dashboard && ToLower(choice) == "2"
    ensures s.view.Detail? ==>
              && (r.next.view == Dashboard <==> ToLower(choice) == "1")
              && (ToLower(choice) != "1" ==> r.next == s)
    ensures s.view == Dashboard && ToLower(choice) != "1" && ToLower(choice) != "2" ==>
              r == Reply(s, Rejected(InvalidInput))
    ensures s.view == Dashboard && ToLower(choice) == "1" && |s.transactions| == 0 ==>
              r == Reply(s, Rejected(NoTransactions))
  {
    var c := ToLower(choice);
    match s.view
    case Detail(_) =>
      if c == "1" then Reply(s.(view := Dashboard), Accepted) else Reply(s, Accepted)
    case Dashboard =>
      if c == "1" then
        if |s.transactions| == 0 then Reply(s, Rejected(NoTransactions))
        else
          (match SelectTransaction(s.transactions, selection)
           case Ok(t) => Reply(s.(view := Detail(t)), Accepted)
           case Err(f) => Reply(s, Rejected(f)))
      else if c == "2" then Reply(s.(view := LoggedOut), Accepted)
      else Reply(s, Rejected(InvalidInput))
  }

  /** From the dashboard, choosing `1` with a valid number opens exactly the
      record listed under that number; a bad number keeps the dashboard. */
  lemma ViewListed(s: Session, choice: string, selection: string)
    requires s.view == Dashboard && ToLower(choice) == "1" && |s.transactions| > 0
    ensures var r := Step(s, choice, selection);
            (r.next.view.Detail? <==> IsDigits(selection) && 1 <= Value(selection) <= |s.transactions|)
            && (r.next.view.Detail? ==> r.next.view.shown == s.transactions[Value(selection) - 1])
            && (!r.next.view.Detail? ==> r == Reply(s, Rejected(InvalidSelection)))
  {
  }
}

=== FILE: cart.dfy ===
/** The cashier's cart: line items appended one per accepted add, and the
    running total the dashboard keeps beside them. */
module Cart {
  import opened Results
  import opened Text
  import opened Catalog

  /** One `{name, qty, price, total}` entry of the cart. */
  datatype LineItem = LineItem(name: string, qty: nat, price: nat, total: nat)

  /** The cart list together with the separately kept running `total`. */
  datatype Cart = Cart(items: seq<LineItem>, total: nat)

  const EmptyCart: Cart := Cart([], 0)

  /** Reference definition of what the running total should be. */
  function SumTotals(items: seq<LineItem>): nat
    decreases |items|
  {
    if |items| == 0 then 0 else items[0].total + SumTotals(items[1..])
  }

  lemma {:induction false} SumTotalsAppend(items: seq<LineItem>, line: LineItem)
    ensures SumTotals(items + [line]) == SumTotals(items) + line.total
    decreases |items|
  {
    if |items| > 0 {
      assert (items + [line])[1..] == items[1..] + [line];
      SumTotalsAppend(items[1..], line);
    }
  }

  predicate WellFormedLine(l: LineItem) {
    l.qty > 0 && l.total == l.qty * l.price
  }

  predicate WellFormedLines(items: seq<LineItem>) {
    forall i :: 0 <= i < |items| ==> WellFormedLine(items[i])
  }

  /** The cart invariant: every line is well formed and the running total is
      the sum of the line totals. */
  predicate Consistent(c: Cart) {
    WellFormedLines(c.items) && c.total == SumTotals(c.items)
  }

  lemma EmptyCartConsistent()
    ensures Consistent(EmptyCart)
  {
  }

  /** The quantity prompt for an already chosen product: an all-digit answer
      above zero appends a line costing `qty * price` and adds that cost to
      the total; any other answer is refused. */
  function AddProduct(c: Cart, p: Product, qtyInput: string): (r: Result<Cart>)
    ensures r.Ok? <==> IsDigits(qtyInput) && Value(qtyInput) > 0
    ensures r.Err? ==> r.error == InvalidQuantity
    ensures r.Ok? ==>
              && |r.value.items| == |c.items| + 1
              && r.value.items[..|c.items|] == c.items
              && r.value.items[|c.items|].name == p.name
              && r.value.items[|c.items|].price == p.price
              && r.value.items[|c.items|].qty == Value(qtyInput)
              && r.value.items[|c.items|].total == Value(qtyInput) * p.price
              && r.value.total == c.total + r.value.items[|c.items|].total
  {
    match ParseNat(qtyInput)
    case Some(qty) =>
      if qty > 0 then
        var cost := qty * p.price;
        Ok(Cart(c.items + [LineItem(p.name, qty, p.price, cost)], c.total + cost))
      else Err(InvalidQuantity)
    case None => Err(InvalidQuantity)
  }

  /** The add-item sub-loop: a product number from the catalog, then a
      quantity. The product number is checked first; the quantity is only
      asked for a valid product. */
  function AddItem(c: Cart, products: seq<Product>, productInput: string, qtyInput: string): (r: Result<Cart>)
    ensures SelectNumber(productInput, |products|).None? <==> r == Err(InvalidProductNumber)
    ensures r.Ok? <==>
              && SelectNumber(productInput, |products|).Some?
              && IsDigits(qtyInput) && Value(qtyInput) > 0
    ensures r.Ok? ==> |r.value.items| == |c.items| + 1 && r.value.items[..|c.items|] == c.items
    ensures SelectNumber(productInput, |products|).Some? ==>
              r == AddProduct(c, products[Value(productInput) - 1], qtyInput)
  {
    match SelectNumber(productInput, |products|)
    case Some(i) => AddProduct(c, products[i], qtyInput)
    case None => Err(InvalidProductNumber)
  }

  /** Accepting a quantity keeps the cart invariant. */
  lemma AddProductConsistent(c: Cart, p: Product, qtyInput: string)
    requires Consistent(c)
    requires AddProduct(c, p, qtyInput).Ok?
    ensures Consistent(AddProduct(c, p, qtyInput).value)
  {
    var qty := Value(qtyInput);
    var line := LineItem(p.name, qty, p.price, qty * p.price);
    SumTotalsAppend(c.items, line);
    var n := AddProduct(c, p, qtyInput).value;
    assert n.items == c.items + [line];
    forall i | 0 <= i < |n.items| ensures WellFormedLine(n.items[i]) {
      if i < |c.items| { assert n.items[i] == c.items[i]; }
    }
  }

  lemma AddItemConsistent(c: Cart, products: seq<Product>, productInput: string, qtyInput: string)
    requires Consistent(c)
    requires AddItem(c, products, productInput, qtyInput).Ok?
    ensures Consistent(AddItem(c, products, productInput, qtyInput).value)
  {
    var i := SelectNumber(productInput, |products|).value;
    AddProductConsistent(c, products[i], qtyInput);
  }
}

=== FILE: cashier.dfy ===
/** The cashier dashboard as a state machine: one `Step` per iteration of its
    loop, reading the answers the operator gives to the prompts that
    iteration shows. */
module Cashier {
  import opened Results
  import opened Text
  import opened Catalog
  import opened Cart
  import opened Store
  import opened Sale

  /** Which loop the dashboard is in: the main menu, the add-item sub-loop
      (entered with `1`, left with `b`), or logged out. */
  datatype Mode = Menu | Adding | LoggedOut

  datatype Session = Session(mode: Mode, till: Till)

  /** A cashier session starts with an empty cart over the current log. */
  function Start(log: seq<Transaction>): (s: Session)
    ensures s.mode == Menu && s.till.log == log && Consistent(s.till.cart) && |s.till.cart.items| == 0
  {
    Session(Menu, Till(EmptyCart, log))
  }

  /** The answers to the prompts of one loop iteration. `line` answers the
      menu (or, in the add-item sub-loop, the product prompt); the others
      answer the quantity, payment-method and cash prompts and are ignored
      when the iteration does not show that prompt. */
  datatype Answers = Answers(line: string, qty: string, payWith: string, cash: string)

  datatype Command = OpenAdd | Pay | Logout | QuickAdd(number: nat) | Unknown

  /** Main-menu dispatch on the lower-cased answer. `1`, `2` and `3` are
      tested before the quick-add branch, so they never quick-add; every
      other number quick-adds, leading zeros included. */
  function Dispatch(choice: string): (r: Command)
    ensures r == OpenAdd <==> choice == "1"
    ensures r == Pay <==> choice == "2"
    ensures r == Logout <==> choice == "3"
    ensures r.QuickAdd? <==> IsDigits(choice) && choice !in {"1", "2", "3"}
    ensures r.QuickAdd? ==> r.number == Value(choice)
    ensures r == Unknown <==> !IsDigits(choice)
  {
    LowerToDigits(choice, "1");
    LowerToDigits(choice, "2");
    LowerToDigits(choice, "3");
    LowerDigits(choice);
    var c := ToLower(choice);
    if c == "1" then OpenAdd
    else if c == "2" then Pay
    else if c == "3" then Logout
    else if IsDigits(c) then QuickAdd(Value(c))
    else Unknown
  }

  datatype Reply = Reply(next: Session, status: Status)

  function Reject(s: Session, f: Fault): Reply {
    Reply(s, Rejected(f))
  }

  function WithCart(s: Session, c: Cart): Session {
    s.(till := s.till.(cart := c))
  }

  /** One iteration of the dashboard loop (or of its add-item sub-loop).
      A rejected answer leaves the session exactly as it was. */
  function Step(s: Session, products: seq<Product>, a: Answers, stamp: Stamp): (r: Reply)
    requires s.mode != LoggedOut
    ensures r.status.Rejected? ==> r.next == s
    ensures TillStep(s.till, r.next.till)
    ensures r.next.mode == LoggedOut <==> s.mode == Menu && a.line == "3"
    ensures r.next.mode == Adding <==>
              (s.mode == Menu && a.line == "1") || (s.mode == Adding && ToLower(a.line) != "b")
    ensures s.mode == Menu && !IsDigits(a.line) ==> r == Reject(s, InvalidInput)
  {
    match s.mode
    case Adding =>
      var p := ToLower(a.line);
      if p == "b" then Reply(s.(mode := Menu), Accepted)
      else
        (match AddItem(s.till.cart, products, p, a.qty)
         case Ok(c) => Reply(WithCart(s, c), Accepted)
         case Err(f) => Reject(s, f))
    case Menu =>
      match Dispatch(a.line)
      case OpenAdd => Reply(s.(mode := Adding), Accepted)
      case Pay =>
        (match Checkout(s.till, a.payWith, a.cash, stamp)
         case Ok(t) => Reply(s.(till := t), Accepted)
         case Err(f) => Reject(s, f))
      case Logout => Reply(s.(mode := LoggedOut), Accepted)
      case QuickAdd(n) =>
        if 1 <= n <= |products| then
          (match AddProduct(s.till.cart, products[n - 1], a.qty)
           case Ok(c) => Reply(WithCart(s, c), Accepted)
           case Err(f) => Reject(s, f))
        else Reject(s, InvalidProductNumber)
      case Unknown => Reject(s, InvalidInput)
  }

  /** What a step may do to the till: nothing, append one line to the cart
      (log untouched), or check out (one record appended, cart emptied). */
  predicate TillStep(before: Till, after: Till) {
    || after == before
    || (&& after.log == before.log
        && |after.cart.items| == |before.cart.items| + 1
        && after.cart.items[..|before.cart.items|] == before.cart.items)
    || (&& after.cart == EmptyCart
        && |before.cart.items| > 0
        && Extends(before.log, after.log)
        && |after.log| == |before.log| + 1
        && after.log[|before.log|].items == before.cart.items
        && after.log[|before.log|].total == before.cart.total)
  }

  /** From a consistent cart a step keeps the cart consistent and appends
      only well-formed records, whatever the log held; a well-formed log
      stays well formed. */
  lemma StepFacts(s: Session, products: seq<Product>, a: Answers, stamp: Stamp)
    requires s.mode != LoggedOut
    ensures var r := Step(s, products, a, stamp);
            Consistent(s.till.cart) ==>
              && Consistent(r.next.till.cart)
              && WellFormedFrom(r.next.till.log, |s.till.log|)
              && (WellFormedLog(s.till.log) ==> WellFormedLog(r.next.till.log))
  {
    var r := Step(s, products, a, stamp);
    if Consistent(s.till.cart) {
      match s.mode
      case Adding =>
        var p := ToLower(a.line);
        if p != "b" && AddItem(s.till.cart, products, p, a.qty).Ok? {
          AddItemConsistent(s.till.cart, products, p, a.qty);
        }
      case Menu =>
        match Dispatch(a.line)
        case Pay =>
          CheckoutKeepsLogWellFormed(s.till, a.payWith, a.cash, stamp);
        case QuickAdd(n) =>
          if 1 <= n <= |products| && AddProduct(s.till.cart, products[n - 1], a.qty).Ok? {
            AddProductConsistent(s.till.cart, products[n - 1], a.qty);
          }
        case _ =>
    }
  }

  /** Quick-add from the main menu: any number other than `1`, `2`, `3`
      names the product the menu lists under that number. It is refused as
      an invalid product when out of range and as an invalid quantity unless
      the quantity is a positive number; otherwise exactly that product's
      line is appended and the log is untouched. */
  lemma QuickAddSelects(s: Session, products: seq<Product>, a: Answers, stamp: Stamp)
    requires s.mode == Menu
    requires IsDigits(a.line) && a.line !in {"1", "2", "3"}
    ensures var r := Step(s, products, a, stamp);
            && (r.status == Rejected(InvalidProductNumber) <==> SelectNumber(a.line, |products|).None?)
            && (r.status.Accepted? <==>
                  SelectNumber(a.line, |products|).Some? && IsDigits(a.qty) && Value(a.qty) > 0)
            && (r.status.Accepted? ==>
                  var p := products[Value(a.line) - 1];
                  var q := Value(a.qty);
                  && r.next.mode == Menu
                  && r.next.till.log == s.till.log
                  && r.next.till.cart.items == s.till.cart.items + [LineItem(p.name, q, p.price, q * p.price)]
                  && r.next.till.cart.total == s.till.cart.total + q * p.price)
  {
  }

  /** Menu answer `2` is checkout: a successful payment replaces the till by
      the checked-out one (one record appended, cart emptied), and a refused
      one reports checkout's own fault and changes nothing. */
  lemma PaySelects(s: Session, products: seq<Product>, a: Answers, stamp: Stamp)
    requires s.mode == Menu && a.line == "2"
    ensures var c := Checkout(s.till, a.payWith, a.cash, stamp);
            && (c.Ok? ==> Step(s, products, a, stamp) == Reply(s.(till := c.value), Accepted))
            && (c.Err? ==> Step(s, products, a, stamp) == Reject(s, c.error))
  {
  }

  /** The add-item sub-loop: any answer but `b` (in either case) is a
      product number. It is refused as an invalid product unless it selects
      a listed product, and as an invalid quantity unless the quantity is a
      positive number; otherwise exactly that product's line is appended,
      the sub-loop continues and the log is untouched. */
  lemma AddingSelects(s: Session, products: seq<Product>, a: Answers, stamp: Stamp)
    requires s.mode == Adding
    requires ToLower(a.line) != "b"
    ensures var r := Step(s, products, a, stamp);
            && (r.status == Rejected(InvalidProductNumber) <==> SelectNumber(a.line, |products|).None?)
            && (r.status.Accepted? <==>
                  SelectNumber(a.line, |products|).Some? && IsDigits(a.qty) && Value(a.qty) > 0)
            && (r.status.Accepted? ==>
                  var p := products[Value(a.line) - 1];
                  var q := Value(a.qty);
                  && r.next.mode == Adding
                  && r.next.till.log == s.till.log
                  && r.next.till.cart.items == s.till.cart.items + [LineItem(p.name, q, p.price, q * p.price)]
                  && r.next.till.cart.total == s.till.cart.total + q * p.price)
  {
    LowerDigits(a.line);
    if IsDigits(ToLower(a.line)) {
      assert ToLower(a.line) == a.line;
    }
  }

  datatype Turn = Turn(answers: Answers, stamp: Stamp)

  /** A bounded run of the dashboard: the turns are played in order until the
      cashier logs out; turns after the logout are not read. */
  function Run(s: Session, products: seq<Product>, turns: seq<Turn>): (r: Session)
    ensures Extends(s.till.log, r.till.log)
    ensures s.mode == LoggedOut ==> r == s
    decreases |turns|
  {
    if |turns| == 0 || s.mode == LoggedOut then s
    else
      var n := Step(s, products, turns[0].answers, turns[0].stamp).next;
      var e := Run(n, products, turns[1..]);
      ExtendsTransitive(s.till.log, n.till.log, e.till.log);
      e
  }

  /** Over any run from a consistent cart the cart stays consistent (the
      total is the sum of the line totals, every line is `qty * price` with
      `qty > 0`), the log only grows at its end, every record the run appends
      is well formed, and a well-formed log stays well formed. */
  lemma {:induction false} RunKeepsInvariants(s: Session, products: seq<Product>, turns: seq<Turn>)
    requires Consistent(s.till.cart)
    ensures var e := Run(s, products, turns);
            && Consistent(e.till.cart)
            && Extends(s.till.log, e.till.log)
            && WellFormedFrom(e.till.log, |s.till.log|)
            && (WellFormedLog(s.till.log) ==> WellFormedLog(e.till.log))
    decreases |turns|
  {
    if |turns| > 0 && s.mode != LoggedOut {
      var n := Step(s, products, turns[0].answers, turns[0].stamp).next;
      var e := Run(n, products, turns[1..]);
      StepFacts(s, products, turns[0].answers, turns[0].stamp);
      RunKeepsInvariants(n, products, turns[1..]);
      WellFormedFromExtends(n.till.log, e.till.log, |s.till.log|);
      if WellFormedLog(s.till.log) {
        WellFormedFromExtends(n.till.log, e.till.log, 0);
      }
    }
  }
}

=== FILE: catalog.dfy ===
/** The fixed product catalog and the numbered selection the dashboards use
    to pick an entry from a list. */
module Catalog {
  import opened Results
  import opened Text

  datatype Product = Product(name: string, price: nat)

  /** The seed list the program starts with; nothing in it is ever edited. */
  const Products: seq<Product> := [
    Product("ID Lace", 75),
    Product("Logo", 50),
    Product("Cartolina", 20),
    Product("Bond Paper", 1)
  ]

  /** `s.isdigit() and 1 <= int(s) <= count`: the operator picks the entry a
      list shows as number `int(s)`, which is position `int(s) - 1`. */
  function SelectNumber(s: string, count: nat): (r: Option<nat>)
    ensures r.Some? <==> IsDigits(s) && 1 <= Value(s) <= count
    ensures r.Some? ==> r.value < count && r.value + 1 == Value(s)
  {
    match ParseNat(s)
    case Some(n) => if 1 <= n <= count then Some(n - 1) else None
    case None => None
  }

  /** The number a list prints beside position `i` selects position `i`. */
  lemma SelectShown(i: nat, count: nat)
    requires i < count
    ensures SelectNumber(Show(i + 1), count) == Some(i)
  {
    ValueShow(i + 1);
  }

  /** Leading zeros select the same entry: `"01"` picks the first. */
  lemma SelectLeadingZero(s: string, count: nat)
    requires IsDigits(s)
    ensures SelectNumber("0" + s, count) == SelectNumber(s, count)
  {
    ValueLeadingZero(s);
  }
}

=== FILE: checkout.dfy ===
/** Checkout: validating the payment, computing the change and turning the
    cart into one appended transaction record. */
module Sale {
  import opened Results
  import opened Text
  import opened Cart
  import opened Store

  /** The cart and the log, the state checkout reads and writes. */
  datatype Till = Till(cart: Cart, log: seq<Transaction>)

  datatype Payment = Payment(via: PayMethod, cash: int, change: int)

  /** The payment-method prompt, lower-cased: only `cash` and `card` are
      methods. */
  function ParseMethod(input: string): (r: Option<PayMethod>)
    ensures r.Some? <==> ToLower(input) == "cash" || ToLower(input) == "card"
    ensures r.Some? ==> MethodName(r.value) == ToLower(input)
  {
    var m := ToLower(input);
    if m == "cash" then Some(Cash)
    else if m == "card" then Some(Card)
    else None
  }

  /** Payment for a cart worth `total`. Cash must be an all-digit amount of
      at least `total` and returns the difference as change; card pays the
      total exactly. The tendered amount is only read for cash. */
  function Settle(total: nat, methodInput: string, cashInput: string): (r: Result<Payment>)
    ensures ParseMethod(methodInput).None? <==> r == Err(InvalidMethod)
    ensures r.Ok? ==> r.value.change >= 0 && r.value.cash == total + r.value.change
    ensures r.Ok? ==> Some(r.value.via) == ParseMethod(methodInput)
    ensures r.Ok? && r.value.via == Card ==> r.value.cash == total && r.value.change == 0
    ensures ParseMethod(methodInput) == Some(Cash) ==>
              (r.Ok? <==> IsDigits(cashInput) && Value(cashInput) >= total)
    ensures r.Ok? && r.value.via == Cash ==> r.value.cash == Value(cashInput)
    ensures r.Err? ==> r.error in {InvalidMethod, InsufficientCash}
  {
    match ParseMethod(methodInput)
    case None => Err(InvalidMethod)
    case Some(Card) => Ok(Payment(Card, total, 0))
    case Some(Cash) =>
      match ParseNat(cashInput)
      case Some(cash) =>
        if cash < total then Err(InsufficientCash) else Ok(Payment(Cash, cash, cash - total))
      case None => Err(InsufficientCash)
  }

  /** The checkout branch of the cashier dashboard. An empty cart is refused
      before anything is asked; a refused payment leaves cart and log as they
      were; a successful one appends exactly one record holding the cart's
      lines and total and empties the cart. */
  function Checkout(t: Till, methodInput: string, cashInput: string, stamp: Stamp): (r: Result<Till>)
    ensures |t.cart.items| == 0 ==> r == Err(CartEmpty)
    ensures |t.cart.items| > 0 && Settle(t.cart.total, methodInput, cashInput).Err? ==>
              r == Err(Settle(t.cart.total, methodInput, cashInput).error)
    ensures r.Ok? <==> |t.cart.items| > 0 && Settle(t.cart.total, methodInput, cashInput).Ok?
    ensures r.Ok? ==> r.value.cart == EmptyCart
    ensures r.Ok? ==>
              && Extends(t.log, r.value.log)
              && |r.value.log| == |t.log| + 1
              && r.value.log[|t.log|].receiptId == stamp.receiptId
              && r.value.log[|t.log|].datetime == stamp.datetime
              && r.value.log[|t.log|].items == t.cart.items
              && r.value.log[|t.log|].total == t.cart.total
  {
    if |t.cart.items| == 0 then Err(CartEmpty)
    else
      match Settle(t.cart.total, methodInput, cashInput)
      case Err(e) => Err(e)
      case Ok(p) =>
        Ok(Till(EmptyCart, SaveTransaction(t.log, stamp, t.cart.items, t.cart.total, p.via, p.cash, p.change)))
  }

  /** Cash checkout of a non-empty cart succeeds exactly when the tendered
      string is a number no smaller than the total, and the recorded change
      is the difference. */
  lemma CashCheckout(t: Till, methodInput: string, cashInput: string, stamp: Stamp)
    requires |t.cart.items| > 0
    requires ToLower(methodInput) == "cash"
    ensures Checkout(t, methodInput, cashInput, stamp).Ok? <==>
              IsDigits(cashInput) && Value(cashInput) >= t.cart.total
    ensures Checkout(t, methodInput, cashInput, stamp).Ok? ==>
              var rec := Checkout(t, methodInput, cashInput, stamp).value.log[|t.log|];
              rec.via == Cash && rec.cash == Value(cashInput)
              && rec.change == Value(cashInput) - t.cart.total && rec.change >= 0
    ensures Checkout(t, methodInput, cashInput, stamp).Err? ==>
              Checkout(t, methodInput, cashInput, stamp).error == InsufficientCash
  {
  }

  /** Card checkout of a non-empty cart always succeeds, with the total as
      the amount paid and no change, whatever was typed at the cash prompt. */
  lemma CardCheckout(t: Till, methodInput: string, cashInput: string, stamp: Stamp)
    requires |t.cart.items| > 0
    requires ToLower(methodInput) == "card"
    ensures Checkout(t, methodInput, cashInput, stamp).Ok?
    ensures var rec := Checkout(t, methodInput, cashInput, stamp).value.log[|t.log|];
            rec.via == Card && rec.cash == t.cart.total && rec.change == 0
  {
  }

  /** Checkout of a consistent cart records a well-formed transaction,
      whatever the log held before, and keeps a well-formed log well formed. */
  lemma CheckoutKeepsLogWellFormed(t: Till, methodInput: string, cashInput: string, stamp: Stamp)
    requires Consistent(t.cart)
    ensures Checkout(t, methodInput, cashInput, stamp).Ok? ==>
              WellFormedTransaction(Checkout(t, methodInput, cashInput, stamp).value.log[|t.log|])
    ensures Checkout(t, methodInput, cashInput, stamp).Ok? && WellFormedLog(t.log) ==>
              WellFormedLog(Checkout(t, methodInput, cashInput, stamp).value.log)
  {
    if Checkout(t, methodInput, cashInput, stamp).Ok? && WellFormedLog(t.log) {
      var p := Settle(t.cart.total, methodInput, cashInput).value;
      SaveKeepsLogWellFormed(t.log, stamp, t.cart.items, t.cart.total, p.via, p.cash, p.change);
    }
  }
}

=== FILE: login.dfy ===
/** The login screen and the routing of a logged-in user to a dashboard. */
module Gate {
  import opened Results
  import opened Text
  import opened Store
  import Cashier
  import Admin

  /** The fixed credential table: user name to password. */
  const Users: map<string, string> := map["admin" := "1234", "cashier" := "1234"]

  /** The user name is lower-cased before the lookup; the password must
      match the stored one exactly. On success the lower-cased name is the
      logged-in user. */
  function Login(users: map<string, string>, username: string, password: string): (r: Result<string>)
    ensures r.Ok? <==> ToLower(username) in users && users[ToLower(username)] == password
    ensures r.Ok? ==> r.value == ToLower(username) && r.value in users
    ensures r.Err? ==> r.error == InvalidCredentials
  {
    var user := ToLower(username);
    if user in users && password == users[user] then Ok(user) else Err(InvalidCredentials)
  }

  /** The user name is case-insensitive: it may be typed in any case. */
  lemma LoginIgnoresCase(users: map<string, string>, username: string, password: string)
    ensures Login(users, ToLower(username), password) == Login(users, username, password)
  {
    ToLowerIdempotent(username);
  }

  /** Where the login loop sends the operator next. */
  datatype Screen =
    | LoginScreen
    | AdminScreen(admin: Admin.Session)
    | CashierScreen(cashier: Cashier.Session)

  /** The user `admin` opens the admin dashboard over the current log, the
      user `cashier` a cashier dashboard with an empty cart; anything else,
      including a failed login, returns to the login screen. */
  function Route(login: Result<string>, log: seq<Transaction>): (r: Screen)
    ensures r.AdminScreen? <==> login == Ok("admin")
    ensures r.CashierScreen? <==> login == Ok("cashier")
    ensures r.AdminScreen? ==> r.admin.transactions == log && r.admin.view == Admin.Dashboard
    ensures r.CashierScreen? ==> r.cashier == Cashier.Start(log)
  {
    if login == Ok("admin") then AdminScreen(Admin.Start(log))
    else if login == Ok("cashier") then CashierScreen(Cashier.Start(log))
    else LoginScreen
  }

  /** With the fixed table, a login succeeds exactly for the two known users
      with password `1234`, and a successful login always reaches the
      dashboard of its role. */
  lemma FixedUsers(username: string, password: string, log: seq<Transaction>)
    ensures Login(Users, username, password).Ok? <==>
              (ToLower(username) == "admin" || ToLower(username) == "cashier") && password == "1234"
    ensures Login(Users, username, password).Ok? ==>
              !Route(Login(Users, username, password), log).LoginScreen?
    ensures Route(Login(Users, username, password), log).AdminScreen? <==>
              ToLower(username) == "admin" && password == "1234"
  {
  }
}

=== FILE: results.dfy ===
/** Failure-carrying values shared by the point-of-sale model.

    Every message the dashboards print through their error helper becomes a
    `Fault`, and so does the notice that there are no transactions to list;
    an operation that the program would answer with such a message returns
    `Err(fault)` and leaves its state alone. */
module Results {

  datatype Option<+T> = None | Some(value: T)

  /** One constructor per refusal message the program can show. */
  datatype Fault =
    | InvalidCredentials      // "Invalid username/password"
    | InvalidInput            // "Invalid input!" (unknown menu choice)
    | InvalidProductNumber    // "Invalid product number!"
    | InvalidQuantity         // "Invalid quantity!"
    | CartEmpty               // "Cart is empty!"
    | InvalidMethod           // "Invalid method!"
    | InsufficientCash        // "Insufficient cash!"
    | InvalidSelection        // "Invalid selection!"
    | NoTransactions          // "No transactions found." (a notice, not an error)

  datatype Result<+T> = Ok(value: T) | Err(error: Fault)

  /** What one iteration of a dashboard loop reports to the operator. */
  datatype Status = Accepted | Rejected(fault: Fault)
}

=== FILE: scenarios.dfy ===
/** Concrete walks through the dashboards with the program's own catalog
    and credential table. */
module Scenarios {
  import opened Results
  import opened Text
  import opened Catalog
  import opened Cart
  import opened Store
  import opened Cashier
  import opened Gate

  const S0: Stamp := Stamp("r-1", "t-1")

  function Ask(line: string, qty: string): Answers {
    Answers(line, qty, "", "")
  }

  /** Two Logos through the add-item sub-loop, then a cash payment of 150:
      the record holds total 100, cash 150 and change 50. */
  lemma LogoCashSale(log: seq<Transaction>)
    ensures var s1 := Step(Start(log), Products, Ask("1", ""), S0).next;
            var s2 := Step(s1, Products, Ask("2", "2"), S0).next;
            var s3 := Step(s2, Products, Ask("B", ""), S0).next;
            var r := Step(s3, Products, Answers("2", "", "Cash", "150"), Stamp("r-7", "t-7"));
            && s2.till.cart.total == 100
            && r.status == Accepted
            && r.next.till.cart == EmptyCart
            && r.next.till.log == log + [Transaction("r-7", "t-7", [LineItem("Logo", 2, 50, 100)], 100, Cash, 150, 50)]
  {
    var s1 := Step(Start(log), Products, Ask("1", ""), S0).next;
    assert s1.mode == Adding;
    var s2 := Step(s1, Products, Ask("2", "2"), S0).next;
    assert ToLower("2") == "2";
    assert Value("2") == 2;
    assert s2.till.cart == Cart([LineItem("Logo", 2, 50, 100)], 100);
    var s3 := Step(s2, Products, Ask("B", ""), S0).next;
    assert ToLower("B") == "b";
    assert s3.mode == Menu;
    assert ToLower("Cash") == "cash";
    assert Value("150") == 150;
  }

  /** Checkout on an empty cart is refused and nothing is recorded. */
  lemma EmptyCartCheckout(log: seq<Transaction>, payWith: string, cash: string)
    ensures Step(Start(log), Products, Answers("2", "", payWith, cash), S0)
            == Reply(Start(log), Rejected(CartEmpty))
  {
    assert ToLower("2") == "2";
  }

  /** A negative quantity is not a digit string: refused, cart unchanged. */
  lemma NegativeQuantity(log: seq<Transaction>)
    ensures Step(Start(log), Products, Ask("4", "-1"), S0)
            == Reply(Start(log), Rejected(InvalidQuantity))
  {
    assert !IsDigit("-1"[0]);
  }

  /** `1` opens the add-item sub-loop while `01` quick-adds product 1. */
  lemma OneVersusZeroOne(log: seq<Transaction>)
    ensures Step(Start(log), Products, Ask("1", "3"), S0).next == Start(log).(mode := Adding)
    ensures Step(Start(log), Products, Ask("01", "3"), S0).next.till.cart
            == Cart([LineItem("ID Lace", 3, 75, 225)], 225)
  {
    assert ToLower("01") == "01";
    assert Value("01") == 1;
    assert Value("3") == 3;
  }

  /** The user name is case-insensitive: `ADMIN` / `1234` opens the admin
      dashboard. */
  lemma AdminInCapitals(log: seq<Transaction>)
    ensures Route(Login(Users, "ADMIN", "1234"), log).AdminScreen?
  {
    assert ToLower("ADMIN") == "admin";
  }
}

=== FILE: store.dfy ===
/** The transaction record built at checkout and the append-only log it is
    written to. The backing file is modelled as the in-memory sequence of
    records it holds, oldest first. */
module Store {
  import opened Cart

  datatype PayMethod = Cash | Card

  /** The receipt id and the local time stamped on a record; both come from
      outside the model and are taken as given. */
  datatype Stamp = Stamp(receiptId: string, datetime: string)

  datatype Transaction = Transaction(
    receiptId: string,
    datetime: string,
    items: seq<LineItem>,
    total: nat,
    via: PayMethod,
    cash: int,
    change: int)

  /** The method name as stored in the record. */
  function MethodName(m: PayMethod): string {
    match m
    case Cash => "cash"
    case Card => "card"
  }

  /** Appending one record to the log: the new record is last and every
      earlier record keeps its position and contents. */
  function SaveTransaction(log: seq<Transaction>, stamp: Stamp, items: seq<LineItem>, total: nat,
                           via: PayMethod, cash: int, change: int): (r: seq<Transaction>)
    ensures |r| == |log| + 1
    ensures r[..|log|] == log
    ensures r[|log|].receiptId == stamp.receiptId && r[|log|].datetime == stamp.datetime
    ensures r[|log|].items == items && r[|log|].total == total && r[|log|].via == via
    ensures r[|log|].cash == cash && r[|log|].change == change
  {
    log + [Transaction(stamp.receiptId, stamp.datetime, items, total, via, cash, change)]
  }

  /** `later` is `earlier` with zero or more records appended. */
  predicate Extends(earlier: seq<Transaction>, later: seq<Transaction>) {
    |earlier| <= |later| && later[..|earlier|] == earlier
  }

  lemma ExtendsTransitive(a: seq<Transaction>, b: seq<Transaction>, c: seq<Transaction>)
    requires Extends(a, b) && Extends(b, c)
    ensures Extends(a, c)
  {
    assert c[..|a|] == c[..|b|][..|a|];
  }

  /** What a completed sale looks like: a non-empty list of well-formed
      lines whose totals sum to `total`, and a payment that covers it. */
  predicate WellFormedTransaction(t: Transaction) {
    && |t.items| > 0
    && WellFormedLines(t.items)
    && t.total == SumTotals(t.items)
    && t.change >= 0
    && t.cash == t.total + t.change
    && (t.via == Card ==> t.change == 0)
  }

  predicate WellFormedLog(log: seq<Transaction>) {
    forall i :: 0 <= i < |log| ==> WellFormedTransaction(log[i])
  }

  /** Every record from position `k` on is well formed. */
  predicate WellFormedFrom(log: seq<Transaction>, k: nat) {
    forall i :: k <= i < |log| ==> WellFormedTransaction(log[i])
  }

  /** Records appended in two stretches are well formed when each stretch is. */
  lemma WellFormedFromExtends(a: seq<Transaction>, b: seq<Transaction>, k: nat)
    requires Extends(a, b) && k <= |a|
    requires WellFormedFrom(a, k) && WellFormedFrom(b, |a|)
    ensures WellFormedFrom(b, k)
  {
    forall i | k <= i < |b| ensures WellFormedTransaction(b[i]) {
      if i < |a| { assert b[i] == b[..|a|][i]; }
    }
  }

  /** Appending a well-formed record to a well-formed log keeps it so. */
  lemma SaveKeepsLogWellFormed(log: seq<Transaction>, stamp: Stamp, items: seq<LineItem>, total: nat,
                               via: PayMethod, cash: int, change: int)
    requires WellFormedLog(log)
    requires WellFormedTransaction(Transaction(stamp.receiptId, stamp.datetime, items, total, via, cash, change))
    ensures WellFormedLog(SaveTransaction(log, stamp, items, total, via, cash, change))
    ensures Extends(log, SaveTransaction(log, stamp, items, total, via, cash, change))
  {
    var r := SaveTransaction(log, stamp, items, total, via, cash, change);
    forall i | 0 <= i < |r| ensures WellFormedTransaction(r[i]) {
      if i < |log| { assert r[i] == log[i]; }
    }
  }
}

=== FILE: text.dfy ===
/** The two string primitives the program relies on: Python's `str.isdigit`
    followed by `int(...)`, and `str.lower`.

    `isdigit` is modelled as "non-empty and every character an ASCII digit",
    `int` as the decimal value of such a string, and `lower` as the ASCII
    mapping of `A`-`Z` to `a`-`z`. */
module Text {
  import opened Results

  predicate IsDigit(c: char) {
    '0' <= c <= '9'
  }

  /** Every character is a digit (the empty string qualifies). */
  predicate AllDigits(s: string) {
    forall i :: 0 <= i < |s| ==> IsDigit(s[i])
  }

  /** Python's `s.isdigit()`: non-empty and all digits. */
  predicate IsDigits(s: string) {
    |s| > 0 && AllDigits(s)
  }

  function DigitValue(c: char): (d: nat)
    requires IsDigit(c)
    ensures d < 10
  {
    (c as int) - ('0' as int)
  }

  function DigitChar(d: nat): (c: char)
    requires d < 10
    ensures IsDigit(c) && DigitValue(c) == d
  {
    (('0' as int) + d) as char
  }

  /** Python's `int(s)` on a digit string: its value in base ten, most
      significant digit first. */
  function Value(s: string): nat
    requires AllDigits(s)
    decreases |s|
  {
    if |s| == 0 then 0
    else Value(s[..|s| - 1]) * 10 + DigitValue(s[|s| - 1])
  }

  /** `s.isdigit()` guarding `int(s)`, as every numeric prompt does. */
  function ParseNat(s: string): (r: Option<nat>)
    ensures r.Some? <==> IsDigits(s)
  {
    if IsDigits(s) then Some(Value(s)) else None
  }

  /** The decimal rendering of a number, as the menus print `idx`; `Value`
      reads it back. */
  function Show(n: nat): (r: string)
    ensures IsDigits(r)
    decreases n
  {
    if n < 10 then [DigitChar(n)] else Show(n / 10) + [DigitChar(n % 10)]
  }

  /** Printing a number and reading it back yields the number. */
  lemma {:induction false} ValueShow(n: nat)
    ensures Value(Show(n)) == n
    decreases n
  {
    if n >= 10 {
      var s := Show(n);
      var prefix := Show(n / 10);
      assert s == prefix + [DigitChar(n % 10)];
      assert s[..|s| - 1] == prefix;
      ValueShow(n / 10);
    }
  }

  /** A digit string not starting with `0` has a positive value. */
  lemma {:induction false} ValuePositive(s: string)
    requires IsDigits(s) && s[0] != '0'
    ensures Value(s) >= 1
    decreases |s|
  {
    if |s| > 1 {
      ValuePositive(s[..|s| - 1]);
    }
  }

  /** Reading a digit string without a leading zero and printing its value
      gives the string back. */
  lemma {:induction false} ShowValue(s: string)
    requires IsDigits(s) && s[0] != '0'
    ensures Show(Value(s)) == s
    decreases |s|
  {
    var last := s[|s| - 1];
    var d := DigitValue(last);
    assert DigitChar(d) == last;
    if |s| > 1 {
      var p := s[..|s| - 1];
      ValuePositive(p);
      ShowValue(p);
      var v := Value(s);
      assert v == Value(p) * 10 + d;
      assert v / 10 == Value(p) && v % 10 == d;
      assert s == p + [last];
    }
  }

  /** An accepted answer without a leading zero is exactly how its value
      prints. */
  lemma ParseNatCanonical(s: string)
    requires ParseNat(s).Some? && s[0] != '0'
    ensures Show(ParseNat(s).value) == s
  {
    ShowValue(s);
  }

  lemma ParseShow(n: nat)
    ensures ParseNat(Show(n)) == Some(n)
  {
    ValueShow(n);
  }

  /** Leading zeros do not change the value: `int("01") == int("1")`. */
  lemma {:induction false} ValueLeadingZero(s: string)
    requires AllDigits(s)
    ensures AllDigits("0" + s) && Value("0" + s) == Value(s)
    decreases |s|
  {
    var z := "0" + s;
    assert AllDigits(z) by {
      forall i | 0 <= i < |z| ensures IsDigit(z[i]) {
        if i > 0 { assert z[i] == s[i - 1]; }
      }
    }
    if |s| > 0 {
      var p := s[..|s| - 1];
      assert z[..|z| - 1] == "0" + p;
      assert z[|z| - 1] == s[|s| - 1];
      ValueLeadingZero(p);
    }
  }

  function LowerChar(c: char): char {
    if 'A' <= c <= 'Z' then ((c as int) - ('A' as int) + ('a' as int)) as char else c
  }

  /** Python's `s.lower()` restricted to ASCII letters: every upper-case
      letter becomes the lower-case letter at the same place in the
      alphabet, and every other character is kept in place. */
  function ToLower(s: string): (r: string)
    ensures |r| == |s|
    ensures forall i :: 0 <= i < |r| ==> !('A' <= r[i] <= 'Z')
    ensures forall i :: 0 <= i < |s| && 'A' <= s[i] <= 'Z' ==>
              'a' <= r[i] <= 'z' && r[i] as int - 'a' as int == s[i] as int - 'A' as int
    ensures forall i :: 0 <= i < |s| && !('A' <= s[i] <= 'Z') ==> r[i] == s[i]
  {
    seq(|s|, i requires 0 <= i < |s| => LowerChar(s[i]))
  }

  /** Lower-casing twice is lower-casing once. */
  lemma ToLowerIdempotent(s: string)
    ensures ToLower(ToLower(s)) == ToLower(s)
  {
  }

  /** Lower-casing leaves digit strings alone and creates no new ones, so a
      lower-cased menu answer is a number exactly when the raw answer is. */
  lemma LowerDigits(s: string)
    ensures IsDigits(ToLower(s)) <==> IsDigits(s)
    ensures IsDigits(s) ==> ToLower(s) == s
  {
    if IsDigits(ToLower(s)) {
      forall i | 0 <= i < |s| ensures IsDigit(s[i]) {
        assert IsDigit(ToLower(s)[i]);
      }
    }
  }

  /** The only raw answer that lower-cases to a given digit string is that
      string itself. */
  lemma LowerToDigits(s: string, t: string)
    requires IsDigits(t)
    ensures ToLower(s) == t <==> s == t
  {
    LowerDigits(t);
    if ToLower(s) == t {
      LowerDigits(s);
    }
  }
}
